=== FILE: README.md ===
# Attribute-set builder: a Dafny model

This project models the core of Robolectric's `AttributeSetBuilderImpl`. The
builder turns logical attribute assignments into an Android binary-XML start
element. That is the `ResXMLTree` chunk layout an unmodified `XmlBlock` parser
reads.

Callers assign texts to attribute ids, and to the three pseudo-attributes
style, class and id. The assignments sit in a sorted map where the last write
wins. The pseudo-attributes use the sentinel keys `Integer.MAX_VALUE - 2`, `- 1`
and `MAX_VALUE`.

`build()` visits the entries in ascending key order. For each entry it:

- resolves the text to a typed value (`Res_value`);
- interns the attribute's name into a fresh ("unique") string-pool slot;
- interns the namespace and raw value into shared slots;
- records the attribute;
- for a real attribute, remembers the pair (name slot → attribute id).

It then emits four chunks in this order:

1. the string pool;
2. a dense resource-id map, but only if the largest name slot is positive;
3. the start element;
4. the end element.

Modules, leaf first:

- `Wrappers`: `Option` and `Result`.
- `JavaInt`: the `int` range, plus `Integer.toString` and its inverse. These are
  used for the `"@" + id` reference literals.
- `SortedMap`: the `TreeMap` as a strictly sorted sequence of entries.
- `StringPool`: the pool writer's `string` (shared) and `uniqueString`
  (unique) calls.
- `ResTypes`: type codes, `TypedValue`, namespaces, and the collaborators
  (`Env`).
- `FormatScan`: the ordered scan over the format flags inside `parse`.
- `AttributeSetBuilder`: sentinel keys, `AttrInfo`, the setters, and the key
  roles of the `switch`.
- `Resolve`: the pseudo-attribute branch and `parse`.
- `Assemble`: the entry loop, with the per-entry interning and its read-back.
- `AttributeSetOutput`: `build()` with the resource map and the chunk order.

Collaborators are parameters (`ResTypes.Env`), not code:

- the resource table: `getResName`, `getResourceId`, `getIdentifier`;
- the qualification of a reference literal into a resource name, in two
  forms: the static `AttributeResource.getResourceReference(text, package,
  null)` for style, class and id (`Env.qualify`), and `getResourceReference()`
  on an `AttributeResource` built from the attribute's own name for a real
  attribute (`Env.qualifyAttr`);
- each attribute's format mask;
- the `gFormatFlags` priority list;
- the converters, modelled as `(attrId, formatName, text, TypedValue) -> (accepted, TypedValue)`.

The pool as it stands when the entry loop starts is also a parameter
(`Assemble.Seed`), together with the element's own namespace and name slots.

Resolution is pure. `Resolve.ResolveEntry` produces a `Meaning`: the type code,
the data word (or "pool index of this text"), and the raw string.
`Assemble.EncodeAttribute` then performs the pool calls in the order the loop
makes them:

1. the string payload;
2. `uniqueString(name)`;
3. `string(namespace)`;
4. `string(rawValue)`.

The main theorem is `AttributeSetOutput.Build`. It says that every emitted
record, read back against the emitted pool (`Assemble.DecodeAttribute`), gives
the namespace, name and meaning of its entry.

A throw discards whatever the loop had written. So the loop, which resolves
and appends entry by entry, equals resolving every entry first and then
appending all records (`Assemble.RunIsResolveThenEncode`). The invariant of the
records is proved over the second form (`Assemble.EncodeAllAccounts`).

Two behaviours of the code are easy to miss:

- **No format accepts the text.** The build raises no error
  (`AttributeSetBuilderImpl.java:243-255`). The scan just ends, and the value
  is whatever the converters left: `new TypedValue()` (null type, data 0, no
  string) if they changed nothing.
- **When the resource map is emitted.** It is emitted whenever the largest name
  slot is positive (`AttributeSetBuilderImpl.java:185`), including when only
  pseudo-attributes are present. The map is then all zeros.

Helpers that carry the source's logic, with where their facts are stated:

- `AttributeSetBuilder.Classify` is the `switch` at lines 109-129. Its
  contract says the role gives the key back (`KeyOf`), and that only
  non-sentinel keys are real attributes.
- `Assemble.AttrName` gives `style`, `class`, `id`, or the resource name's
  `name`.
- `FormatScan.ScanFormats` is the loop at lines 243-255 exactly as written.
  `FormatScan.ScanIsFirstAccept` ties it to the specified scan.

## Model

| member | source | states |
|---|---|---|
| `SortedMap.Put` | robolectric/src/main/java/org/robolectric/android/AttributeSetBuilderImpl.java:48 | `TreeMap.put` keeps keys strictly ascending, maps the key to the new value, leaves every other key's value unchanged, and the smallest key is the minimum of the old smallest key and the new key |
| `SortedMap.PutOverwrites` | robolectric/src/main/java/org/robolectric/android/AttributeSetBuilderImpl.java:48 | putting one key twice equals putting only the last value |
| `SortedMap.PutCommutes` | robolectric/src/main/java/org/robolectric/android/AttributeSetBuilderImpl.java:48 | puts to distinct keys commute |
| `SortedMap.Extensionality` | robolectric/src/main/java/org/robolectric/android/AttributeSetBuilderImpl.java:48 | two sorted maps that agree on every lookup are identical, so the entry order depends only on the map's contents |
| `AttributeSetBuilder.AddAttribute` | robolectric/src/main/java/org/robolectric/android/AttributeSetBuilderImpl.java:66-70 | afterwards the key holds exactly the given text (null allowed), every other key is unchanged, and keys stay sorted Java ints |
| `AttributeSetBuilder.SetStyleAttribute` | robolectric/src/main/java/org/robolectric/android/AttributeSetBuilderImpl.java:72-76 | writes the key `Integer.MAX_VALUE - 2` and only that key |
| `AttributeSetBuilder.SetClassAttribute` | robolectric/src/main/java/org/robolectric/android/AttributeSetBuilderImpl.java:78-82 | writes the key `Integer.MAX_VALUE - 1` and only that key |
| `AttributeSetBuilder.SetIdAttribute` | robolectric/src/main/java/org/robolectric/android/AttributeSetBuilderImpl.java:84-88 | writes the key `Integer.MAX_VALUE` and only that key |
| `AttributeSetBuilder.LastWriteWins` | robolectric/src/main/java/org/robolectric/android/AttributeSetBuilderImpl.java:66-70 | assigning one key twice leaves the builder as if only the last assignment had been made |
| `AttributeSetBuilder.SettersCommute` | robolectric/src/main/java/org/robolectric/android/AttributeSetBuilderImpl.java:66-88 | assignments to different keys may be made in either order with the same result |
| `AttributeSetBuilder.AttrInfoOfId` | robolectric/src/main/java/org/robolectric/android/AttributeSetBuilderImpl.java:57-59 | `new AttrInfo(int)` stores exactly `@` + `Integer.toString(id)`, a text that parses back to the given id |
| `AttributeSetBuilder.EntriesInRoleOrder` | robolectric/src/main/java/org/robolectric/android/AttributeSetBuilderImpl.java:104-129 | in iteration order every real attribute precedes style, style precedes class, class precedes id, and real attributes appear in ascending id order |
| `JavaInt.ParseToString` | robolectric/src/main/java/org/robolectric/android/AttributeSetBuilderImpl.java:229-232 | the decimal text written after `@` for a reference reads back as the same integer |
| `JavaInt.ToStringInjective` | robolectric/src/main/java/org/robolectric/android/AttributeSetBuilderImpl.java:57-59 | distinct ids give distinct reference texts |
| `JavaInt.ToString` | robolectric/src/main/java/org/robolectric/android/AttributeSetBuilderImpl.java:232 | `Integer.toString` writes a non-empty text: `-` followed by at least one digit exactly when the number is negative, otherwise digits only; the canonical spelling: no leading zero except for 0 itself, and no `-0` |
| `StringPool.Intern` | robolectric/src/main/java/org/robolectric/android/AttributeSetBuilderImpl.java:160-171 | shared interning returns a slot that holds the text (the null index for null), reuses the text's existing slot without growing the pool, appends a fresh last slot for a text not yet shared, and never disturbs earlier slots |
| `StringPool.InternUnique` | robolectric/src/main/java/org/robolectric/android/AttributeSetBuilderImpl.java:169 | unique interning always appends exactly one new slot holding the name and leaves the shared-text table unchanged |
| `StringPool.SharedSlotsCoincide` | robolectric/src/main/java/org/robolectric/android/AttributeSetBuilderImpl.java:160-171 | two shared internings of one text, however far apart, give the same slot |
| `StringPool.UniqueSlotIsFresh` | robolectric/src/main/java/org/robolectric/android/AttributeSetBuilderImpl.java:169 | a unique interning never returns an existing slot, even for text already pooled |
| `FormatScan.Eligible` | robolectric/src/main/java/org/robolectric/android/AttributeSetBuilderImpl.java:243-247 | the formats offered are exactly those whose bit is set in the mask, never `reference` |
| `FormatScan.EligibleOne` | robolectric/src/main/java/org/robolectric/android/AttributeSetBuilderImpl.java:243-247 | a single flag offers its name exactly when its bit is in the mask and it is not `reference` |
| `FormatScan.EligibleAppend` | robolectric/src/main/java/org/robolectric/android/AttributeSetBuilderImpl.java:243-247 | the offers for two flag lists in a row are the first list's offers followed by the second's, so names keep the flag order, one per eligible flag |
| `FormatScan.FirstAcceptTrace` | robolectric/src/main/java/org/robolectric/android/AttributeSetBuilderImpl.java:243-255 | formats are tried in order; each converter receives the value the previous one left; every attempt but the last declined; the scan stops at the first acceptance or after trying every format; the result is what the last converter left |
| `FormatScan.ScanIsFirstAccept` | robolectric/src/main/java/org/robolectric/android/AttributeSetBuilderImpl.java:241-255 | the loop as written (test bit, skip `reference`, break on acceptance) equals first-acceptance over the eligible formats in flag order |
| `FormatScan.AllDeclineLeavesValue` | robolectric/src/main/java/org/robolectric/android/AttributeSetBuilderImpl.java:243-255 | if every eligible converter declines without touching the value, the scan returns the value unchanged |
| `Resolve.ResolvePseudo` | robolectric/src/main/java/org/robolectric/android/AttributeSetBuilderImpl.java:151-165 | null or `@null` text gives type NULL with data 0; reference text gives type REFERENCE with the resource table's id; any other text gives type STRING pooled as itself; the raw value is the text |
| `Resolve.ResolveReal` | robolectric/src/main/java/org/robolectric/android/AttributeSetBuilderImpl.java:215-258 | fails with the text exactly when it is a reference whose identifier lookup is 0; any other reference gives REFERENCE, data = id, raw exactly `@` + `Integer.toString(id)`, whatever formats are declared; non-reference text takes type, data and raw string from the first eligible converter that accepts; a STRING result is pooled as its raw string |
| `Resolve.ResolveEntry` | robolectric/src/main/java/org/robolectric/android/AttributeSetBuilderImpl.java:140-165 | the pseudo-attribute branch never fails, and only a STRING value is pooled, always as its raw string |
| `Resolve.UnacceptedTextIsNull` | robolectric/src/main/java/org/robolectric/android/AttributeSetBuilderImpl.java:241-257 | text that no permitted format accepts resolves without error to type NULL, data 0, no raw string, when the converters leave the value untouched |
| `Resolve.AttrInfoOfIdIsReference` | robolectric/src/main/java/org/robolectric/android/AttributeSetBuilderImpl.java:57-59 | the text stored by `new AttrInfo(int)` is always reference syntax |
| `Assemble.EncodeAttribute` | robolectric/src/main/java/org/robolectric/android/AttributeSetBuilderImpl.java:146-171 | the record reads back as its namespace, name and meaning; the name takes a fresh slot above every existing one; a STRING data word equals the raw-value slot; the namespace and raw value sit in their texts' shared slots; the record carries the full name `namespace:name` |
| `Assemble.AttrNamespace` | robolectric/src/main/java/org/robolectric/android/AttributeSetBuilderImpl.java:106-128 | style, class and id have the empty namespace; a real attribute has the Android namespace exactly when its package is `android`, and the res-auto namespace otherwise |
| `AttributeSetBuilder.ClassifyKeyOf` | robolectric/src/main/java/org/robolectric/android/AttributeSetBuilderImpl.java:109-129 | every role is recovered by the switch from the key it is stored under, for any real id that is not a sentinel |
| `Assemble.ResolveAll` | robolectric/src/main/java/org/robolectric/android/AttributeSetBuilderImpl.java:104-176 | a successful resolution has one meaning per entry, in key order, each the entry's own resolution and each well formed |
| `Assemble.ResolveAllFailure` | robolectric/src/main/java/org/robolectric/android/AttributeSetBuilderImpl.java:104-176 | resolution fails exactly when some entry fails, and then with the error of the first entry that fails |
| `Assemble.ResolveAllFailsOnUnresolvedReference` | robolectric/src/main/java/org/robolectric/android/AttributeSetBuilderImpl.java:221-227 | resolution fails exactly when some real attribute holds a reference whose identifier lookup is 0; the error carries the first such text |
| `Assemble.Append` | robolectric/src/main/java/org/robolectric/android/AttributeSetBuilderImpl.java:167-175 | a successful pass appends exactly one record, which reads back as its entry and carries the full name `attrNs:attrName`, with a name slot beyond the pool it started from; `resIds` gains the real attribute's id at that slot and keeps every other entry; `maxAttrNameIndex` becomes the larger of itself and the slot |
| `Assemble.Step` | robolectric/src/main/java/org/robolectric/android/AttributeSetBuilderImpl.java:131-175 | a pass throws exactly when the entry's resolution does, with the same error; otherwise it only grows the pool, keeps every earlier record unchanged, and appends one record that reads back as the entry's namespace, name and resolved meaning, carries the full name `attrNs:attrName`, and has a name slot beyond the pool it started from |
| `Assemble.Run` | robolectric/src/main/java/org/robolectric/android/AttributeSetBuilderImpl.java:104-176 | the loop over all entries appends one record per entry when it completes, and a throw carries the error of some entry's resolution |
| `Assemble.AppendAccounts` | robolectric/src/main/java/org/robolectric/android/AttributeSetBuilderImpl.java:131-175 | one loop pass keeps the invariant: records read back as their entries; name slots are fresh and increasing; namespaces and raw values sit in their shared slots; `resIds` maps exactly the real attributes' name slots to their ids; `maxAttrNameIndex` is the last name slot |
| `Assemble.EncodeAllAccounts` | robolectric/src/main/java/org/robolectric/android/AttributeSetBuilderImpl.java:104-176 | after the records of any well-formed meanings are appended in order, the invariant of `AppendAccounts` holds for every entry |
| `Assemble.RunIsResolveThenEncode` | robolectric/src/main/java/org/robolectric/android/AttributeSetBuilderImpl.java:104-176 | the loop, which throws at the first failing entry, equals resolving every entry first and then appending all records: it throws exactly when resolution does, with the same error |
| `Assemble.RunAccounts` | robolectric/src/main/java/org/robolectric/android/AttributeSetBuilderImpl.java:98-176 | a loop that completes has resolved every entry, and its final state satisfies the invariant of `AppendAccounts` for every entry |
| `AttributeSetOutput.EmitResourceMap` | robolectric/src/main/java/org/robolectric/android/AttributeSetBuilderImpl.java:186-192 | the map has max + 1 entries; entry i is the id recorded for slot i, or 0 |
| `AttributeSetOutput.EmitChunks` | robolectric/src/main/java/org/robolectric/android/AttributeSetBuilderImpl.java:184-197 | after a completed loop the chunks come in order, every record reads back as its entry, name slots are fresh and ordered, equal raw values share a slot, and the map is dense |
| `AttributeSetOutput.Build` | robolectric/src/main/java/org/robolectric/android/AttributeSetBuilderImpl.java:91-199 | fails exactly when resolution fails, with the first error; otherwise emits the pool, the map iff the largest name slot is positive, then start and end elements; every record reads back against the pool as its entry's namespace, name and meaning, and carries the full name `namespace:name`; name slots are distinct and in key order; equal raw values share a slot; the map covers slots 0..max with each real attribute's id at its name slot and 0 elsewhere; with a non-empty starting pool the map is present exactly when there is an entry |

## Left out

- The reflective construction of `XmlBlock` and its parser, and the two `next` calls: runtime class loading. `Build` returns the chunk sequence instead of a parser.
- The `RuntimeEnvironment`, `Context`, `Resources` and `AssetManager` lookups: modelled as the given collaborator values in `ResTypes.Env`.
- Converter internals (dimension, float, fraction, color, enum and flag parsing) and `fillTypedValue`: abstract functions. A converter that throws is not modelled.
- The enum/flag value table (`getResourceBagValues`) and the parsing of the `ATTR_TYPE` bag text into an int: folded into the converter and format-mask collaborators.
- Byte layout: the string-pool, node, attribute-extension and tree headers are not part of this model. Chunks are modelled by their contents and order, not by sizes or offsets.
- The 16 KB `ByteBuffer` and its overflow.
- The string-pool writer class is not part of this model. It is modelled as follows: a shared text (`string`) reuses the slot it first got, a unique text (`uniqueString`) always gets a new slot and is not registered for sharing, and a null text gets index -1.
- `AttributeResource` is not part of this model. Literal syntax follows Android's convention: `@null` is the null literal, and any other text starting with `@` is a reference. The qualification of a reference into a resource name is one of two collaborators, `Env.qualify` (the static form) or `Env.qualifyAttr` (the attribute's own form).
- The element writers' constructors are not part of this model. The `Seed` supplies the pool as it stands when the loop starts and the element's namespace and name slots; the end element reuses them.
- `Resolve.Resolvable`: a null-unboxing crash when a style/class/id reference is not in the resource table, and a crash when a real attribute's text is null. Both are excluded by precondition rather than modelled.
- `ResTypes.Env`: `getResName` is total. The crash on an attribute id unknown to the table is not modelled.
- `DataType.fromCode` on an unknown type code: type codes are carried through unchanged.
- `ShadowOsConstants`, `ShadowAccessibilityEventTest` and `RealApisTest`: reflection wrappers and framework tests with no logic of this builder.

=== FILE: assemble.dfy ===
/**
 `build()`: the entry loop that resolves every assignment in key order,
 interns its strings and records its attribute, followed by the emission of
 the string pool, the optional dense resource-id map, and the start- and
 end-element chunks.
 */
module Assemble {
  import opened Wrappers
  import opened SortedMap
  import opened StringPool
  import opened ResTypes
  import opened AttributeSetBuilder
  import opened Resolve

  /** `Res_value`: a type code and its 32-bit data word. */
  datatype ResValue = ResValue(dataType: int, data: int)

  /**
   One attribute record of the start element: pool indices, the typed value,
   and the full name `namespace:name` the element writer is handed with it.
   */
  datatype Attribute = Attribute(ns: int, name: int, rawValue: int, value: ResValue, fullName: string)

  datatype Chunk =
    | StringPoolChunk(strings: seq<string>)
    | ResourceMapChunk(ids: seq<int>)
    | StartElementChunk(ns: int, name: int, attributes: seq<Attribute>)
    | EndElementChunk(ns: int, name: int)

  /**
   The element's own namespace and name indices and the pool as it stands
   when the entry loop starts (the element writers intern their own names).
   */
  datatype Seed = Seed(pool: Pool, ns: int, name: int)

  /** The attribute name of each role. */
  function AttrName(env: Env, key: Key): string {
    match key
    case Style => "style"
    case Class => "class"
    case Id => "id"
    case Real(id) => env.resName(id).name
  }

  /** Style, class and id have no namespace; real attributes take the namespace of their package. */
  function AttrNamespace(env: Env, key: Key): (ns: string)
    ensures !key.Real? <==> ns == ""
    ensures key.Real? ==> (ns == ANDROID_NS <==> env.resName(key.id).packageName == "android")
    ensures key.Real? ==> (ns == AUTO_NS <==> env.resName(key.id).packageName != "android")
  {
    match key
    case Real(id) => if env.resName(id).packageName == "android" then ANDROID_NS else AUTO_NS
    case _ => ""
  }

  /** An attribute record read back against a serialized pool. */
  datatype DecodedAttribute = DecodedAttribute(namespace: Option<string>, name: Option<string>, meaning: Meaning)

  function DecodeAttribute(strings: seq<string>, a: Attribute): DecodedAttribute {
    var payload := if a.value.dataType == TYPE_STRING then Pooled(Lookup(strings, a.value.data)) else Word(a.value.data);
    DecodedAttribute(Lookup(strings, a.ns), Lookup(strings, a.name), Meaning(a.value.dataType, payload, Lookup(strings, a.rawValue)))
  }

  /** What an entry's record must read back as. */
  function Expected(env: Env, key: Key, m: Meaning): DecodedAttribute {
    DecodedAttribute(Some(AttrNamespace(env, key)), Some(AttrName(env, key)), m)
  }

  predicate AttributePlaced(strings: seq<string>, a: Attribute) {
    && Placed(strings, a.ns)
    && Placed(strings, a.name)
    && Placed(strings, a.rawValue)
    && (a.value.dataType == TYPE_STRING ==> Placed(strings, a.value.data))
  }

  /** A placed record reads back the same in every later pool. */
  lemma DecodeStable(p: Pool, q: Pool, a: Attribute)
    requires Extends(p, q)
    requires AttributePlaced(p.strings, a)
    ensures AttributePlaced(q.strings, a)
    ensures DecodeAttribute(q.strings, a) == DecodeAttribute(p.strings, a)
  {
    LookupStable(p, q, a.ns);
    LookupStable(p, q, a.name);
    LookupStable(p, q, a.rawValue);
    if a.value.dataType == TYPE_STRING {
      LookupStable(p, q, a.value.data);
    }
  }

  /**
   The interning of one entry, in the order the loop makes the calls: the
   string payload (shared), the name (unique), the namespace (shared), the raw
   value (shared). The record reads back as the namespace, name and meaning it
   encodes; the name takes a fresh slot; a string payload and the raw value
   share one slot; the namespace and raw value get their texts' shared slots.
   */
  function EncodeAttribute(pool: Pool, ns: string, name: string, m: Meaning): (r: (Pool, Attribute))
    requires pool.Valid() && WellFormed(m)
    ensures r.0.Valid() && Extends(pool, r.0)
    ensures AttributePlaced(r.0.strings, r.1)
    ensures DecodeAttribute(r.0.strings, r.1) == DecodedAttribute(Some(ns), Some(name), m)
    ensures r.1.fullName == ns + ":" + name
    ensures |pool.strings| <= r.1.name < |r.0.strings|
    ensures m.dataType == TYPE_STRING ==> r.1.value.data == r.1.rawValue
    ensures ns in r.0.shared && r.0.shared[ns] == r.1.ns
    ensures m.raw.Some? ==> m.raw.value in r.0.shared && r.0.shared[m.raw.value] == r.1.rawValue
  {
    var (p1, data) := match m.payload
      case Word(n) => (pool, n)
      case Pooled(text) => Intern(pool, text);
    var (p2, nameIndex) := InternUnique(p1, name);
    var (p3, nsIndex) := Intern(p2, Some(ns));
    var (p4, rawIndex) := Intern(p3, m.raw);
    ExtendsTransitive(pool, p1, p2);
    ExtendsTransitive(pool, p2, p3);
    ExtendsTransitive(pool, p3, p4);
    ExtendsTransitive(p1, p2, p3);
    ExtendsTransitive(p1, p3, p4);
    ExtendsTransitive(p2, p3, p4);
    LookupStable(p2, p4, nameIndex);
    LookupStable(p3, p4, nsIndex);
    assert m.payload.Pooled? ==> Placed(p4.strings, data) && Lookup(p4.strings, data) == Lookup(p1.strings, data) by {
      if m.payload.Pooled? {
        LookupStable(p1, p4, data);
      }
    }
    (p4, Attribute(nsIndex, nameIndex, rawIndex, ResValue(m.dataType, data), ns + ":" + name))
  }

  /** The loop's local state: the pool writer, the records written, `resIds`, `maxAttrNameIndex`. */
  datatype BuildState = BuildState(pool: Pool, attributes: seq<Attribute>, resIds: map<int, int>, maxAttrNameIndex: int)

  ghost predicate EntryResolvable(env: Env, e: Entry<AttrInfo>) {
    Resolvable(env, Classify(e.key), e.value.value)
  }

  ghost predicate AllResolvable(env: Env, entries: seq<Entry<AttrInfo>>) {
    forall i :: 0 <= i < |entries| ==> EntryResolvable(env, entries[i])
  }

  function Resolution(env: Env, e: Entry<AttrInfo>): Result<Meaning, BuildError>
    requires EntryResolvable(env, e)
  {
    ResolveEntry(env, Classify(e.key), e.value.value)
  }

  ghost predicate AllWellFormed(ms: seq<Meaning>) {
    forall i :: 0 <= i < |ms| ==> WellFormed(ms[i])
  }

  /**
   The meanings of all entries in order, or the error of the first entry that
   fails. This is the reference the built attribute set is compared with.
   */
  function ResolveAll(env: Env, entries: seq<Entry<AttrInfo>>): (r: Result<seq<Meaning>, BuildError>)
    requires AllResolvable(env, entries)
    ensures r.Success? ==> |r.value| == |entries|
    ensures r.Success? ==> forall i :: 0 <= i < |entries| ==> Resolution(env, entries[i]) == Success(r.value[i])
    ensures r.Success? ==> AllWellFormed(r.value)
    decreases |entries|
  {
    if |entries| == 0 then Success([])
    else
      var n := |entries| - 1;
      var prefix := entries[..n];
      assert forall i :: 0 <= i < n ==> prefix[i] == entries[i];
      match ResolveAll(env, prefix)
      case Failure(err) => Failure(err)
      case Success(ms) =>
        match Resolution(env, entries[n])
        case Failure(err) => Failure(err)
        case Success(m) => Success(ms + [m])
  }

  /**
   Resolution fails exactly when some entry fails, and then with the error of
   the first entry that does.
   */
  lemma {:induction false} ResolveAllFailure(env: Env, entries: seq<Entry<AttrInfo>>)
    requires AllResolvable(env, entries)
    ensures ResolveAll(env, entries).Failure? <==> exists i :: 0 <= i < |entries| && Resolution(env, entries[i]).Failure?
    ensures ResolveAll(env, entries).Failure? ==>
              exists i :: 0 <= i < |entries| && Resolution(env, entries[i]) == Failure(ResolveAll(env, entries).error)
                && forall j :: 0 <= j < i ==> Resolution(env, entries[j]).Success?
    decreases |entries|
  {
    if |entries| > 0 {
      var n := |entries| - 1;
      var prefix := entries[..n];
      assert forall i :: 0 <= i < n ==> prefix[i] == entries[i];
      ResolveAllFailure(env, prefix);
      var all := ResolveAll(env, prefix);
      var last := Resolution(env, entries[n]);
      if all.Failure? {
        assert ResolveAll(env, entries) == all;
        var i :| 0 <= i < n && Resolution(env, prefix[i]) == Failure(all.error)
                 && forall j :: 0 <= j < i ==> Resolution(env, prefix[j]).Success?;
        assert Resolution(env, entries[i]) == Failure(all.error);
      } else if last.Failure? {
        assert ResolveAll(env, entries) == Failure(last.error);
        assert forall j :: 0 <= j < n ==> Resolution(env, entries[j]).Success?;
      } else {
        assert ResolveAll(env, entries).Success?;
      }
    }
  }

  /** A real attribute whose text is a reference the identifier lookup does not know. */
  predicate UnresolvedEntry(env: Env, e: Entry<AttrInfo>) {
    && Classify(e.key).Real?
    && e.value.value.Some?
    && IsReference(e.value.value.value)
    && env.identifier(AttrReferent(env, Classify(e.key).id, e.value.value.value)) == 0
  }

  /**
   Resolving the entries fails exactly when some real attribute holds an
   unresolvable reference, and the error names the first such text; a text no
   format accepts is never an error.
   */
  lemma ResolveAllFailsOnUnresolvedReference(env: Env, entries: seq<Entry<AttrInfo>>)
    requires AllResolvable(env, entries)
    ensures ResolveAll(env, entries).Failure? <==> exists i :: 0 <= i < |entries| && UnresolvedEntry(env, entries[i])
    ensures ResolveAll(env, entries).Failure? ==>
              exists i :: 0 <= i < |entries| && UnresolvedEntry(env, entries[i])
                && ResolveAll(env, entries).error == UnresolvedReference(entries[i].value.value.value)
                && forall j :: 0 <= j < i ==> !UnresolvedEntry(env, entries[j])
  {
    ResolveAllFailure(env, entries);
    assert forall i :: 0 <= i < |entries| ==> (Resolution(env, entries[i]).Failure? <==> UnresolvedEntry(env, entries[i]));
  }

  /** The loop body after a successful resolution: intern the strings, record the attribute, track the name slot. */
  function Append(env: Env, st: BuildState, e: Entry<AttrInfo>, m: Meaning): (r: BuildState)
    requires st.pool.Valid() && WellFormed(m)
    ensures r.pool.Valid() && Extends(st.pool, r.pool)
    ensures |r.attributes| == |st.attributes| + 1 && r.attributes[..|st.attributes|] == st.attributes
    ensures var a := r.attributes[|st.attributes|];
            && DecodeAttribute(r.pool.strings, a) == Expected(env, Classify(e.key), m)
            && a.fullName == AttrNamespace(env, Classify(e.key)) + ":" + AttrName(env, Classify(e.key))
            && |st.pool.strings| <= a.name
            && (Classify(e.key).Real? ==> a.name in r.resIds && r.resIds[a.name] == e.key)
            && (forall x :: x in st.resIds && x != a.name ==> x in r.resIds && r.resIds[x] == st.resIds[x])
            && (forall x :: x in r.resIds ==> x in st.resIds || (x == a.name && Classify(e.key).Real?))
            && r.maxAttrNameIndex == (if st.maxAttrNameIndex < a.name then a.name else st.maxAttrNameIndex)
  {
    var key := Classify(e.key);
    var (pool, a) := EncodeAttribute(st.pool, AttrNamespace(env, key), AttrName(env, key), m);
    var resIds := if key.Real? then st.resIds[a.name := key.id] else st.resIds;
    var maxIndex := if st.maxAttrNameIndex < a.name then a.name else st.maxAttrNameIndex;
    BuildState(pool, st.attributes + [a], resIds, maxIndex)
  }

  /** One pass of the loop body: resolve the entry (which may throw), then append its record. */
  function Step(env: Env, st: BuildState, e: Entry<AttrInfo>): (r: Result<BuildState, BuildError>)
    requires st.pool.Valid() && EntryResolvable(env, e)
    ensures r.Failure? <==> Resolution(env, e).Failure?
    ensures r.Failure? ==> r.error == Resolution(env, e).error
    ensures r.Success? ==> r.value.pool.Valid() && Extends(st.pool, r.value.pool)
    ensures r.Success? ==> |r.value.attributes| == |st.attributes| + 1
    ensures r.Success? ==> r.value.attributes[..|st.attributes|] == st.attributes
    ensures r.Success? ==>
              var a := r.value.attributes[|st.attributes|];
              && DecodeAttribute(r.value.pool.strings, a) == Expected(env, Classify(e.key), Resolution(env, e).value)
              && a.fullName == AttrNamespace(env, Classify(e.key)) + ":" + AttrName(env, Classify(e.key))
              && |st.pool.strings| <= a.name
  {
    match Resolution(env, e)
    case Failure(err) => Failure(err)
    case Success(m) => Success(Append(env, st, e, m))
  }

  /** The loop over the entries in order, stopping at the first that throws. */
  function Run(env: Env, seed: Seed, entries: seq<Entry<AttrInfo>>): (r: Result<BuildState, BuildError>)
    requires seed.pool.Valid() && AllResolvable(env, entries)
    ensures r.Success? ==> r.value.pool.Valid() && Extends(seed.pool, r.value.pool)
    ensures r.Success? ==> |r.value.attributes| == |entries|
    ensures r.Failure? ==> exists i :: 0 <= i < |entries| && Resolution(env, entries[i]) == Failure(r.error)
    decreases |entries|
  {
    if |entries| == 0 then
      assert seed.pool.strings[..|seed.pool.strings|] == seed.pool.strings;
      Success(BuildState(seed.pool, [], map[], 0))
    else
      var n := |entries| - 1;
      assert forall i :: 0 <= i < n ==> entries[..n][i] == entries[i];
      match Run(env, seed, entries[..n])
      case Failure(err) => Failure(err)
      case Success(st) =>
        var r := Step(env, st, entries[n]);
        assert r.Success? ==> Extends(seed.pool, r.value.pool) by {
          if r.Success? {
            ExtendsTransitive(seed.pool, st.pool, r.value.pool);
          }
        }
        r
  }

  /** The loop body applied to entries whose meanings are already known. */
  function EncodeAll(env: Env, seed: Seed, entries: seq<Entry<AttrInfo>>, ms: seq<Meaning>): (r: BuildState)
    requires seed.pool.Valid() && |entries| == |ms| && AllWellFormed(ms)
    ensures r.pool.Valid() && Extends(seed.pool, r.pool)
    decreases |entries|
  {
    if |entries| == 0 then
      assert seed.pool.strings[..|seed.pool.strings|] == seed.pool.strings;
      BuildState(seed.pool, [], map[], 0)
    else
      var n := |entries| - 1;
      var st := EncodeAll(env, seed, entries[..n], ms[..n]);
      var r := Append(env, st, entries[n], ms[n]);
      ExtendsTransitive(seed.pool, st.pool, r.pool);
      r
  }

  /**
   The loop, which resolves and appends entry by entry and stops at the first
   throw, is resolving every entry first and then appending them all: it
   throws exactly when resolution does, with the same error.
   */
  lemma {:induction false} RunIsResolveThenEncode(env: Env, seed: Seed, entries: seq<Entry<AttrInfo>>)
    requires seed.pool.Valid() && AllResolvable(env, entries)
    ensures ResolveAll(env, entries).Failure? ==> Run(env, seed, entries) == Failure(ResolveAll(env, entries).error)
    ensures ResolveAll(env, entries).Success? ==>
              Run(env, seed, entries) == Success(EncodeAll(env, seed, entries, ResolveAll(env, entries).value))
    decreases |entries|
  {
    if |entries| > 0 {
      var n := |entries| - 1;
      var prefix := entries[..n];
      assert forall i :: 0 <= i < n ==> prefix[i] == entries[i];
      RunIsResolveThenEncode(env, seed, prefix);
      var all := ResolveAll(env, prefix);
      var last := Resolution(env, entries[n]);
      if all.Failure? {
        assert Run(env, seed, entries) == Failure(all.error);
        assert ResolveAll(env, entries) == Failure(all.error);
      } else if last.Failure? {
        assert Run(env, seed, entries) == Failure(last.error);
        assert ResolveAll(env, entries) == Failure(last.error);
      } else {
        var ms := all.value + [last.value];
        assert ResolveAll(env, entries) == Success(ms);
        assert ms[..n] == all.value;
        var prev := EncodeAll(env, seed, prefix, all.value);
        assert Run(env, seed, entries) == Success(Append(env, prev, entries[n], last.value));
      }
    }
  }

  /**
   What the record `a` written for entry `e` with meaning `m` must satisfy in
   `pool`: it reads back as the entry's namespace, name and meaning; its name
   slot is fresh (at least `base`); its namespace and raw value sit in their
   texts' shared slots; a string's data word is its raw value's slot.
   */
  ghost predicate RecordFor(env: Env, base: int, pool: Pool, e: Entry<AttrInfo>, m: Meaning, a: Attribute) {
    var key := Classify(e.key);
    && AttributePlaced(pool.strings, a)
    && DecodeAttribute(pool.strings, a) == Expected(env, key, m)
    && a.fullName == AttrNamespace(env, key) + ":" + AttrName(env, key)
    && base <= a.name < |pool.strings|
    && AttrNamespace(env, key) in pool.shared && pool.shared[AttrNamespace(env, key)] == a.ns
    && (m.raw.Some? ==> m.raw.value in pool.shared && pool.shared[m.raw.value] == a.rawValue)
    && (a.value.dataType == TYPE_STRING ==> a.value.data == a.rawValue)
  }

  /** A record stays accounted for while the pool grows. */
  lemma RecordStable(env: Env, base: int, p: Pool, q: Pool, e: Entry<AttrInfo>, m: Meaning, a: Attribute)
    requires Extends(p, q) && RecordFor(env, base, p, e, m, a)
    ensures RecordFor(env, base, q, e, m, a)
  {
    DecodeStable(p, q, a);
  }

  /** Every record is accounted for against its entry and meaning. */
  ghost predicate RecordsFor(env: Env, base: int, pool: Pool, entries: seq<Entry<AttrInfo>>, ms: seq<Meaning>, attrs: seq<Attribute>) {
    && |entries| == |ms| == |attrs|
    && forall i :: 0 <= i < |entries| ==> RecordFor(env, base, pool, entries[i], ms[i], attrs[i])
  }

  /** Name slots strictly increase in record order. */
  ghost predicate NamesIncrease(attrs: seq<Attribute>) {
    forall i, j :: 0 <= i < j < |attrs| ==> attrs[i].name < attrs[j].name
  }

  /** `x` is the name slot of a real attribute among the records. */
  ghost predicate IsRealNameSlot(entries: seq<Entry<AttrInfo>>, attrs: seq<Attribute>, x: int)
    requires |attrs| == |entries|
  {
    exists i :: 0 <= i < |entries| && Classify(entries[i].key).Real? && attrs[i].name == x
  }

  /** `resIds` maps exactly the real attributes' name slots, each to its attribute id. */
  ghost predicate ResIdsRecorded(entries: seq<Entry<AttrInfo>>, attrs: seq<Attribute>, resIds: map<int, int>) {
    && |attrs| == |entries|
    && (forall i :: 0 <= i < |entries| && Classify(entries[i].key).Real? ==>
          attrs[i].name in resIds && resIds[attrs[i].name] == entries[i].key)
    && (forall x :: x in resIds ==> IsRealNameSlot(entries, attrs, x))
  }

  /** The loop state after the entries whose meanings are `ms`. */
  ghost predicate Accounts(env: Env, seed: Seed, entries: seq<Entry<AttrInfo>>, ms: seq<Meaning>, st: BuildState) {
    && st.pool.Valid() && Extends(seed.pool, st.pool)
    && RecordsFor(env, |seed.pool.strings|, st.pool, entries, ms, st.attributes)
    && NamesIncrease(st.attributes)
    && ResIdsRecorded(entries, st.attributes, st.resIds)
    && st.maxAttrNameIndex == (if |entries| == 0 then 0 else st.attributes[|entries| - 1].name)
  }

  lemma AppendResId(entries: seq<Entry<AttrInfo>>, attrs: seq<Attribute>, resIds: map<int, int>, a: Attribute)
    requires 0 < |entries|
    requires ResIdsRecorded(entries[..|entries| - 1], attrs, resIds)
    requires forall i :: 0 <= i < |attrs| ==> attrs[i].name < a.name
    ensures var key := Classify(entries[|entries| - 1].key);
            ResIdsRecorded(entries, attrs + [a], if key.Real? then resIds[a.name := key.id] else resIds)
  {
    var n := |entries| - 1;
    var prefix := entries[..n];
    assert forall i :: 0 <= i < n ==> prefix[i] == entries[i];
    var key := Classify(entries[n].key);
    var attrs' := attrs + [a];
    var resIds' := if key.Real? then resIds[a.name := key.id] else resIds;
    forall x | x in resIds'
      ensures IsRealNameSlot(entries, attrs', x)
    {
      if !(key.Real? && x == a.name) {
        assert IsRealNameSlot(prefix, attrs, x);
        var i :| 0 <= i < n && Classify(prefix[i].key).Real? && attrs[i].name == x;
        assert attrs'[i].name == x;
      } else {
        assert attrs'[n].name == x;
      }
    }
  }

  /** The record `EncodeAttribute` writes for an entry is accounted for in the pool it returns. */
  lemma EncodeRecord(env: Env, base: int, pool: Pool, e: Entry<AttrInfo>, m: Meaning)
    requires pool.Valid() && WellFormed(m) && base <= |pool.strings|
    ensures var key := Classify(e.key);
            var r := EncodeAttribute(pool, AttrNamespace(env, key), AttrName(env, key), m);
            && RecordFor(env, base, r.0, e, m, r.1)
            && |pool.strings| <= r.1.name
  {
  }

  /** The accounted records stay accounted for in a larger pool, and one more can be appended. */
  lemma RecordsSnoc(env: Env, base: int, p: Pool, q: Pool, entries: seq<Entry<AttrInfo>>, ms: seq<Meaning>,
                    attrs: seq<Attribute>, m: Meaning, a: Attribute)
    requires 0 < |entries|
    requires RecordsFor(env, base, p, entries[..|entries| - 1], ms, attrs)
    requires Extends(p, q) && |p.strings| <= a.name
    requires RecordFor(env, base, q, entries[|entries| - 1], m, a)
    ensures RecordsFor(env, base, q, entries, ms + [m], attrs + [a])
    ensures forall i :: 0 <= i < |attrs| ==> attrs[i].name < a.name
  {
    var n := |entries| - 1;
    var prefix := entries[..n];
    forall i | 0 <= i < |entries|
      ensures RecordFor(env, base, q, entries[i], (ms + [m])[i], (attrs + [a])[i])
    {
      if i < n {
        assert prefix[i] == entries[i];
        RecordStable(env, base, p, q, entries[i], ms[i], attrs[i]);
      }
    }
    forall i | 0 <= i < n
      ensures attrs[i].name < a.name
    {
      assert RecordFor(env, base, p, prefix[i], ms[i], attrs[i]);
    }
  }

  lemma NamesSnoc(attrs: seq<Attribute>, a: Attribute)
    requires NamesIncrease(attrs)
    requires forall i :: 0 <= i < |attrs| ==> attrs[i].name < a.name
    ensures NamesIncrease(attrs + [a])
  {
  }

  /** Appending a record accounted for in a larger pool keeps the whole state accounted for. */
  lemma AccountsSnoc(env: Env, seed: Seed, entries: seq<Entry<AttrInfo>>, ms: seq<Meaning>, st: BuildState,
                     m: Meaning, pool: Pool, a: Attribute)
    requires 0 < |entries|
    requires Accounts(env, seed, entries[..|entries| - 1], ms, st)
    requires pool.Valid() && Extends(st.pool, pool) && |st.pool.strings| <= a.name
    requires RecordFor(env, |seed.pool.strings|, pool, entries[|entries| - 1], m, a)
    ensures var key := Classify(entries[|entries| - 1].key);
            var resIds := if key.Real? then st.resIds[a.name := key.id] else st.resIds;
            var maxIndex := if st.maxAttrNameIndex < a.name then a.name else st.maxAttrNameIndex;
            Accounts(env, seed, entries, ms + [m], BuildState(pool, st.attributes + [a], resIds, maxIndex))
  {
    ExtendsTransitive(seed.pool, st.pool, pool);
    RecordsSnoc(env, |seed.pool.strings|, st.pool, pool, entries, ms, st.attributes, m, a);
    NamesSnoc(st.attributes, a);
    AppendResId(entries, st.attributes, st.resIds, a);
  }

  /** One more record keeps the loop state accounted for. */
  lemma AppendAccounts(env: Env, seed: Seed, entries: seq<Entry<AttrInfo>>, ms: seq<Meaning>, st: BuildState, m: Meaning)
    requires 0 < |entries| && st.pool.Valid() && WellFormed(m)
    requires Accounts(env, seed, entries[..|entries| - 1], ms, st)
    ensures Accounts(env, seed, entries, ms + [m], Append(env, st, entries[|entries| - 1], m))
  {
    var e := entries[|entries| - 1];
    var key := Classify(e.key);
    var r := EncodeAttribute(st.pool, AttrNamespace(env, key), AttrName(env, key), m);
    EncodeRecord(env, |seed.pool.strings|, st.pool, e, m);
    AccountsSnoc(env, seed, entries, ms, st, m, r.0, r.1);
  }

  /** Appending the records of any well-formed meanings leaves every one of them accounted for. */
  lemma {:induction false} EncodeAllAccounts(env: Env, seed: Seed, entries: seq<Entry<AttrInfo>>, ms: seq<Meaning>)
    requires seed.pool.Valid() && |entries| == |ms| && AllWellFormed(ms)
    ensures Accounts(env, seed, entries, ms, EncodeAll(env, seed, entries, ms))
    decreases |entries|
  {
    if |entries| > 0 {
      var n := |entries| - 1;
      var prefix := ms[..n];
      assert prefix + [ms[n]] == ms;
      EncodeAllAccounts(env, seed, entries[..n], prefix);
      AppendAccounts(env, seed, entries, prefix, EncodeAll(env, seed, entries[..n], prefix), ms[n]);
    } else {
      assert seed.pool.strings[..|seed.pool.strings|] == seed.pool.strings;
    }
  }

  /**
   A loop that completes has resolved every entry and accounts for each of
   them in order.
   */
  lemma RunAccounts(env: Env, seed: Seed, entries: seq<Entry<AttrInfo>>, st: BuildState)
    requires seed.pool.Valid() && AllResolvable(env, entries)
    requires Run(env, seed, entries) == Success(st)
    ensures ResolveAll(env, entries).Success?
    ensures Accounts(env, seed, entries, ResolveAll(env, entries).value, st)
  {
    RunIsResolveThenEncode(env, seed, entries);
    EncodeAllAccounts(env, seed, entries, ResolveAll(env, entries).value);
  }
}

=== FILE: build.dfy ===
/**
 The output of `build()`: the string pool, then the resource-id map when the
 largest attribute-name slot is positive, then the start element carrying
 every record in key order, then the end element.
 */
module AttributeSetOutput {
  import opened Wrappers
  import opened SortedMap
  import opened StringPool
  import opened ResTypes
  import opened AttributeSetBuilder
  import opened Resolve
  import opened Assemble

  /** The chunk sequence: pool, optional resource map, start element, end element. */
  ghost predicate ChunkOrder(seed: Seed, c: seq<Chunk>) {
    && (|c| == 3 || |c| == 4)
    && c[0].StringPoolChunk?
    && (|c| == 4 ==> c[1].ResourceMapChunk?)
    && c[|c| - 2].StartElementChunk?
    && c[|c| - 2].ns == seed.ns && c[|c| - 2].name == seed.name
    && c[|c| - 1] == EndElementChunk(seed.ns, seed.name)
  }

  predicate HasResourceMap(c: seq<Chunk>) {
    |c| == 4
  }

  /** The start element's attribute records. */
  function Records(c: seq<Chunk>): seq<Attribute>
    requires 2 <= |c| && c[|c| - 2].StartElementChunk?
  {
    c[|c| - 2].attributes
  }

  /** Every record reads back, against the emitted pool, as its entry's namespace, name and meaning. */
  ghost predicate RecordsRoundTrip(env: Env, entries: seq<Entry<AttrInfo>>, ms: seq<Meaning>, seed: Seed, c: seq<Chunk>)
    requires ChunkOrder(seed, c)
  {
    var attrs := Records(c);
    && |attrs| == |entries| == |ms|
    && forall i :: 0 <= i < |attrs| ==>
         && DecodeAttribute(c[0].strings, attrs[i]) == Expected(env, Classify(entries[i].key), ms[i])
         && attrs[i].fullName == AttrNamespace(env, Classify(entries[i].key)) + ":" + AttrName(env, Classify(entries[i].key))
  }

  /** Attribute names hold distinct slots, in entry order, none of them the seed's. */
  ghost predicate FreshNameSlots(seed: Seed, c: seq<Chunk>)
    requires ChunkOrder(seed, c)
  {
    var attrs := Records(c);
    && (forall i :: 0 <= i < |attrs| ==> |seed.pool.strings| <= attrs[i].name)
    && (forall i, j :: 0 <= i < j < |attrs| ==> attrs[i].name < attrs[j].name)
  }

  /** Equal raw values share one slot, and a string's data word is that slot. */
  ghost predicate SharedValueSlots(seed: Seed, c: seq<Chunk>)
    requires ChunkOrder(seed, c)
  {
    var attrs := Records(c);
    && (forall i, j ::
          (0 <= i < |attrs| && 0 <= j < |attrs| &&
           Lookup(c[0].strings, attrs[i].rawValue) == Lookup(c[0].strings, attrs[j].rawValue)) ==>
          attrs[i].rawValue == attrs[j].rawValue)
    && (forall i :: 0 <= i < |attrs| && attrs[i].value.dataType == TYPE_STRING ==>
          attrs[i].value.data == attrs[i].rawValue)
  }

  /**
   The resource map is present exactly when some name slot is positive; it
   then runs from slot 0 to the largest name slot, holds each real attribute's
   id at its name slot, and 0 at every other slot.
   */
  ghost predicate ResourceMapDense(entries: seq<Entry<AttrInfo>>, seed: Seed, c: seq<Chunk>)
    requires ChunkOrder(seed, c)
  {
    var attrs := Records(c);
    && |attrs| == |entries|
    && (HasResourceMap(c) <==> exists i :: 0 <= i < |attrs| && 0 < attrs[i].name)
    && (HasResourceMap(c) ==>
          var ids := c[1].ids;
          && (forall i :: 0 <= i < |attrs| ==> 0 <= attrs[i].name < |ids|)
          && (exists i :: 0 <= i < |attrs| && attrs[i].name == |ids| - 1)
          && (forall i :: 0 <= i < |attrs| && Classify(entries[i].key).Real? ==> ids[attrs[i].name] == entries[i].key)
          && (forall x :: 0 <= x < |ids| && !IsRealNameSlot(entries, attrs, x) ==> ids[x] == 0))
  }

  /** The dense map loop: one id per slot from 0 to `maxIndex`, 0 where none was recorded. */
  method EmitResourceMap(resIds: map<int, int>, maxIndex: int) returns (ids: seq<int>)
    requires 0 <= maxIndex
    ensures |ids| == maxIndex + 1
    ensures forall x :: 0 <= x < |ids| && x in resIds ==> ids[x] == resIds[x]
    ensures forall x :: 0 <= x < |ids| && x !in resIds ==> ids[x] == 0
  {
    ids := [];
    var i := 0;
    while i <= maxIndex
      invariant 0 <= i <= maxIndex + 1
      invariant |ids| == i
      invariant forall x :: 0 <= x < i ==> ids[x] == if x in resIds then resIds[x] else 0
    {
      ids := ids + [if i in resIds then resIds[i] else 0];
      i := i + 1;
    }
  }

  /** The records of an accounted-for loop state, emitted with its pool, read back as their entries. */
  lemma RecordsFromAccounts(env: Env, seed: Seed, entries: seq<Entry<AttrInfo>>, ms: seq<Meaning>, st: BuildState, c: seq<Chunk>)
    requires Accounts(env, seed, entries, ms, st)
    requires ChunkOrder(seed, c) && c[0].strings == st.pool.strings && Records(c) == st.attributes
    ensures RecordsRoundTrip(env, entries, ms, seed, c)
    ensures FreshNameSlots(seed, c)
    ensures SharedValueSlots(seed, c)
  {
    var attrs := st.attributes;
    var base := |seed.pool.strings|;
    forall i, j | 0 <= i < |attrs| && 0 <= j < |attrs| &&
                  Lookup(st.pool.strings, attrs[i].rawValue) == Lookup(st.pool.strings, attrs[j].rawValue)
      ensures attrs[i].rawValue == attrs[j].rawValue
    {
      assert RecordFor(env, base, st.pool, entries[i], ms[i], attrs[i]);
      assert RecordFor(env, base, st.pool, entries[j], ms[j], attrs[j]);
    }
  }

  /** The map emitted from an accounted-for loop state is dense and complete. */
  lemma MapFromAccounts(env: Env, seed: Seed, entries: seq<Entry<AttrInfo>>, ms: seq<Meaning>, st: BuildState, c: seq<Chunk>)
    requires Accounts(env, seed, entries, ms, st)
    requires ChunkOrder(seed, c) && Records(c) == st.attributes
    requires HasResourceMap(c) <==> 0 < st.maxAttrNameIndex
    requires HasResourceMap(c) ==>
               && |c[1].ids| == st.maxAttrNameIndex + 1
               && (forall x :: 0 <= x < |c[1].ids| && x in st.resIds ==> c[1].ids[x] == st.resIds[x])
               && (forall x :: 0 <= x < |c[1].ids| && x !in st.resIds ==> c[1].ids[x] == 0)
    ensures ResourceMapDense(entries, seed, c)
    ensures 0 < |seed.pool.strings| ==> (HasResourceMap(c) <==> 0 < |entries|)
  {
    var attrs := st.attributes;
    var n := |attrs|;
    var base := |seed.pool.strings|;
    assert forall i :: 0 <= i < n ==> base <= attrs[i].name <= st.maxAttrNameIndex by {
      forall i | 0 <= i < n
        ensures base <= attrs[i].name <= st.maxAttrNameIndex
      {
        assert RecordFor(env, base, st.pool, entries[i], ms[i], attrs[i]);
        if i < n - 1 {
          assert attrs[i].name < attrs[n - 1].name;
        }
      }
    }
    if HasResourceMap(c) {
      var ids := c[1].ids;
      assert attrs[n - 1].name == |ids| - 1;
      forall x | 0 <= x < |ids| && !IsRealNameSlot(entries, attrs, x)
        ensures ids[x] == 0
      {
        assert x !in st.resIds;
      }
    }
  }

  /** The chunks `build()` writes around the loop state, with `ids` as the resource map. */
  function Layout(seed: Seed, st: BuildState, ids: seq<int>): seq<Chunk> {
    var pool := StringPoolChunk(st.pool.strings);
    var start := StartElementChunk(seed.ns, seed.name, st.attributes);
    var end := EndElementChunk(seed.ns, seed.name);
    if st.maxAttrNameIndex > 0 then [pool, ResourceMapChunk(ids), start, end] else [pool, start, end]
  }

  /** The chunks emitted after a successful loop have every property `build()` promises. */
  lemma OutputFacts(env: Env, seed: Seed, entries: seq<Entry<AttrInfo>>, st: BuildState, ids: seq<int>)
    requires seed.pool.Valid() && AllResolvable(env, entries)
    requires Run(env, seed, entries) == Success(st)
    requires 0 < st.maxAttrNameIndex ==>
               && |ids| == st.maxAttrNameIndex + 1
               && (forall x :: 0 <= x < |ids| && x in st.resIds ==> ids[x] == st.resIds[x])
               && (forall x :: 0 <= x < |ids| && x !in st.resIds ==> ids[x] == 0)
    ensures ResolveAll(env, entries).Success?
    ensures ChunkOrder(seed, Layout(seed, st, ids))
    ensures RecordsRoundTrip(env, entries, ResolveAll(env, entries).value, seed, Layout(seed, st, ids))
    ensures FreshNameSlots(seed, Layout(seed, st, ids))
    ensures SharedValueSlots(seed, Layout(seed, st, ids))
    ensures ResourceMapDense(entries, seed, Layout(seed, st, ids))
    ensures 0 < |seed.pool.strings| ==> (HasResourceMap(Layout(seed, st, ids)) <==> 0 < |entries|)
  {
    RunAccounts(env, seed, entries, st);
    var ms := ResolveAll(env, entries).value;
    var c := Layout(seed, st, ids);
    RecordsFromAccounts(env, seed, entries, ms, st, c);
    MapFromAccounts(env, seed, entries, ms, st, c);
  }

  /**
   The emission after a successful loop: the pool, the map when the largest
   name slot is positive, the start element with every record, the end element.
   */
  method EmitChunks(env: Env, seed: Seed, entries: seq<Entry<AttrInfo>>, st: BuildState) returns (c: seq<Chunk>)
    requires seed.pool.Valid() && AllResolvable(env, entries)
    requires Run(env, seed, entries) == Success(st)
    ensures ResolveAll(env, entries).Success?
    ensures ChunkOrder(seed, c)
    ensures RecordsRoundTrip(env, entries, ResolveAll(env, entries).value, seed, c)
    ensures FreshNameSlots(seed, c)
    ensures SharedValueSlots(seed, c)
    ensures ResourceMapDense(entries, seed, c)
    ensures 0 < |seed.pool.strings| ==> (HasResourceMap(c) <==> 0 < |entries|)
  {
    var ids := [];
    if st.maxAttrNameIndex > 0 {
      ids := EmitResourceMap(st.resIds, st.maxAttrNameIndex);
    }
    OutputFacts(env, seed, entries, st, ids);
    c := Layout(seed, st, ids);
  }

  /**
   `build()`. It throws exactly when resolving the entries in key order
   throws, with the first entry's error. Otherwise it emits the chunks in
   order, every record reads back as its entry, names take fresh slots, equal
   raw values share slots, and the resource map is dense. When the seed pool
   already holds the element's name, the map is present exactly when there is
   at least one entry.
   */
  method Build(env: Env, b: Builder, seed: Seed) returns (r: Result<seq<Chunk>, BuildError>)
    requires b.Valid() && seed.pool.Valid() && AllResolvable(env, b.attrToValue)
    ensures r.Failure? <==> ResolveAll(env, b.attrToValue).Failure?
    ensures r.Failure? ==> r.error == ResolveAll(env, b.attrToValue).error
    ensures r.Success? ==> ChunkOrder(seed, r.value)
    ensures r.Success? ==> RecordsRoundTrip(env, b.attrToValue, ResolveAll(env, b.attrToValue).value, seed, r.value)
    ensures r.Success? ==> FreshNameSlots(seed, r.value)
    ensures r.Success? ==> SharedValueSlots(seed, r.value)
    ensures r.Success? ==> ResourceMapDense(b.attrToValue, seed, r.value)
    ensures r.Success? && 0 < |seed.pool.strings| ==> (HasResourceMap(r.value) <==> 0 < |b.attrToValue|)
  {
    var run := Run(env, seed, b.attrToValue);
    RunIsResolveThenEncode(env, seed, b.attrToValue);
    if run.Failure? {
      return Failure(run.error);
    }
    var chunks := EmitChunks(env, seed, b.attrToValue, run.value);
    r := Success(chunks);
  }
}

=== FILE: builder.dfy ===
/**
 The pending assignments of `AttributeSetBuilderImpl`: a sorted map from
 attribute id to `AttrInfo`, written by `addAttribute` and by the style, class
 and id setters, which use three sentinel keys at the top of the `int` range.
 */
module AttributeSetBuilder {
  import opened Wrappers
  import opened JavaInt
  import opened SortedMap

  const STYLE_RES_ID: int := INT_MAX - 2
  const CLASS_RES_ID: int := INT_MAX - 1
  const ID_RES_ID: int := INT_MAX

  /** The text assigned to an attribute; `None` is Java's `null`. */
  datatype AttrInfo = AttrInfo(value: Option<string>)

  /** `new AttrInfo(int)`: the reference literal `@` followed by the id in decimal. */
  function AttrInfoOfId(id: int): (a: AttrInfo)
    ensures a.value.Some? && 1 < |a.value.value| && a.value.value[0] == '@'
    ensures Parse(a.value.value[1..]) == Some(id)
    ensures a.value == Some("@" + ToString(id))
  {
    var text := "@" + ToString(id);
    assert text[1..] == ToString(id);
    ParseToString(id);
    AttrInfo(Some(text))
  }

  datatype Builder = Builder(attrToValue: seq<Entry<AttrInfo>>) {
    /** Keys are Java ints, kept in ascending order. */
    ghost predicate Valid() {
      && Sorted(attrToValue)
      && forall i :: 0 <= i < |attrToValue| ==> IsInt32(attrToValue[i].key)
    }
  }

  /** `addAttribute(resId, value)`: the last assignment to a key wins; other keys are untouched. */
  function AddAttribute(b: Builder, resId: int, value: Option<string>): (r: Builder)
    requires b.Valid() && IsInt32(resId)
    ensures r.Valid()
    ensures Get(r.attrToValue, resId) == Some(AttrInfo(value))
    ensures forall k :: k != resId ==> Get(r.attrToValue, k) == Get(b.attrToValue, k)
  {
    var m := Put(b.attrToValue, resId, AttrInfo(value));
    assert forall i :: 0 <= i < |m| ==> IsInt32(m[i].key) by {
      forall i | 0 <= i < |m|
        ensures IsInt32(m[i].key)
      {
        GetIsEntry(m, i);
        if m[i].key != resId {
          KeyOfGet(b.attrToValue, m[i].key);
        }
      }
    }
    Builder(m)
  }

  /** `setStyleAttribute(value)`: writes the style sentinel key. */
  function SetStyleAttribute(b: Builder, value: Option<string>): (r: Builder)
    requires b.Valid()
    ensures r.Valid()
    ensures Get(r.attrToValue, STYLE_RES_ID) == Some(AttrInfo(value))
    ensures forall k :: k != STYLE_RES_ID ==> Get(r.attrToValue, k) == Get(b.attrToValue, k)
  {
    AddAttribute(b, STYLE_RES_ID, value)
  }

  /** `setClassAttribute(value)`: writes the class sentinel key. */
  function SetClassAttribute(b: Builder, value: Option<string>): (r: Builder)
    requires b.Valid()
    ensures r.Valid()
    ensures Get(r.attrToValue, CLASS_RES_ID) == Some(AttrInfo(value))
    ensures forall k :: k != CLASS_RES_ID ==> Get(r.attrToValue, k) == Get(b.attrToValue, k)
  {
    AddAttribute(b, CLASS_RES_ID, value)
  }

  /** `setIdAttribute(value)`: writes the id sentinel key. */
  function SetIdAttribute(b: Builder, value: Option<string>): (r: Builder)
    requires b.Valid()
    ensures r.Valid()
    ensures Get(r.attrToValue, ID_RES_ID) == Some(AttrInfo(value))
    ensures forall k :: k != ID_RES_ID ==> Get(r.attrToValue, k) == Get(b.attrToValue, k)
  {
    AddAttribute(b, ID_RES_ID, value)
  }

  /** Setting one key twice is the same as setting it once to the last value. */
  lemma LastWriteWins(b: Builder, resId: int, first: Option<string>, last: Option<string>)
    requires b.Valid() && IsInt32(resId)
    ensures AddAttribute(AddAttribute(b, resId, first), resId, last) == AddAttribute(b, resId, last)
  {
    PutOverwrites(b.attrToValue, resId, AttrInfo(first), AttrInfo(last));
  }

  /** Assignments to different keys may be made in either order. */
  lemma SettersCommute(b: Builder, k1: int, v1: Option<string>, k2: int, v2: Option<string>)
    requires b.Valid() && IsInt32(k1) && IsInt32(k2) && k1 != k2
    ensures AddAttribute(AddAttribute(b, k1, v1), k2, v2) == AddAttribute(AddAttribute(b, k2, v2), k1, v1)
  {
    PutCommutes(b.attrToValue, k1, AttrInfo(v1), k2, AttrInfo(v2));
  }

  /** The role a map key plays in `build()`: a real attribute id, or one of the three pseudo-attributes. */
  datatype Key = Real(id: int) | Style | Class | Id

  predicate IsSentinel(k: int) {
    k == STYLE_RES_ID || k == CLASS_RES_ID || k == ID_RES_ID
  }

  /** The map key each role is stored under: the sentinel of its setter, or the attribute id itself. */
  function KeyOf(key: Key): int {
    match key
    case Real(id) => id
    case Style => STYLE_RES_ID
    case Class => CLASS_RES_ID
    case Id => ID_RES_ID
  }

  /**
   The `switch` on the map key: the sentinels stand for style, class and id,
   every other key is a real attribute id. The role gives the key back, and a
   real role never carries a sentinel.
   */
  function Classify(k: int): (r: Key)
    ensures KeyOf(r) == k
    ensures r.Real? <==> !IsSentinel(k)
  {
    if k == STYLE_RES_ID then Style
    else if k == CLASS_RES_ID then Class
    else if k == ID_RES_ID then Id
    else Real(k)
  }

  /** Each role is recovered from the key it is stored under, so the setters' keys mean their roles. */
  lemma ClassifyKeyOf(key: Key)
    requires key.Real? ==> !IsSentinel(key.id)
    ensures Classify(KeyOf(key)) == key
  {
  }

  /** Position of a key's role in the emission order. */
  function Rank(key: Key): nat {
    match key
    case Real(_) => 0
    case Style => 1
    case Class => 2
    case Id => 3
  }

  /**
   Entries are visited in ascending key order, so every real attribute comes
   before style, style before class, and class before id.
   */
  lemma EntriesInRoleOrder(b: Builder, i: int, j: int)
    requires b.Valid()
    requires 0 <= i < j < |b.attrToValue|
    ensures var ki := Classify(b.attrToValue[i].key);
            var kj := Classify(b.attrToValue[j].key);
            Rank(ki) < Rank(kj) || (ki.Real? && kj.Real? && ki.id < kj.id)
  {
  }
}

=== FILE: format_scan.dfy ===
/**
 The format scan of `parse`: the text is offered to the converter of every
 format the attribute permits, in format-flag order and passing over
 `reference`, until one accepts. The `TypedValue` is shared by all attempts,
 so a converter that declines may still have changed it. When no converter
 accepts, the scan simply ends and its result is the `TypedValue` as left.
 */
module FormatScan {
  import opened ResTypes

  predicate IsEligible(f: FlagEntry, mask: bv32) {
    mask & f.value != 0 && f.name != REFERENCE_FORMAT
  }

  /** The loop over the format flags as written: skip, try, stop at the first acceptance. */
  function ScanFormats(env: Env, attrId: int, text: string, flags: seq<FlagEntry>, mask: bv32, tv: TypedValue): TypedValue
    decreases |flags|
  {
    if |flags| == 0 then tv
    else if IsEligible(flags[0], mask) then
      var (accepted, next) := env.convert(attrId, flags[0].name, text, tv);
      if accepted then next else ScanFormats(env, attrId, text, flags[1..], mask, next)
    else ScanFormats(env, attrId, text, flags[1..], mask, tv)
  }

  /** The names of the formats the scan offers the text to, in order. */
  function Eligible(flags: seq<FlagEntry>, mask: bv32): (names: seq<string>)
    ensures |names| <= |flags|
    ensures REFERENCE_FORMAT !in names
    ensures forall i :: 0 <= i < |flags| && IsEligible(flags[i], mask) ==> flags[i].name in names
    ensures forall n :: n in names ==> exists i :: 0 <= i < |flags| && IsEligible(flags[i], mask) && flags[i].name == n
  {
    if |flags| == 0 then []
    else
      var rest := Eligible(flags[1..], mask);
      assert forall n :: n in rest ==> exists i :: 1 <= i < |flags| && IsEligible(flags[i], mask) && flags[i].name == n by {
        forall n | n in rest
          ensures exists i :: 1 <= i < |flags| && IsEligible(flags[i], mask) && flags[i].name == n
        {
          var j :| 0 <= j < |flags[1..]| && IsEligible(flags[1..][j], mask) && flags[1..][j].name == n;
          assert flags[j + 1] == flags[1..][j];
        }
      }
      assert forall i :: 1 <= i < |flags| ==> flags[i] == flags[1..][i - 1];
      if IsEligible(flags[0], mask) then [flags[0].name] + rest else rest
  }

  /** A single flag offers its name exactly when it is eligible. */
  lemma EligibleOne(f: FlagEntry, mask: bv32)
    ensures Eligible([f], mask) == if IsEligible(f, mask) then [f.name] else []
  {
    assert [f][1..] == [];
  }

  /**
   The offers for a concatenation of flag lists are the offers of the first
   list followed by those of the second: with `EligibleOne`, the names follow
   the flag order, one per eligible flag.
   */
  lemma {:induction false} EligibleAppend(a: seq<FlagEntry>, b: seq<FlagEntry>, mask: bv32)
    ensures Eligible(a + b, mask) == Eligible(a, mask) + Eligible(b, mask)
    decreases |a|
  {
    if |a| == 0 {
      assert a + b == b;
    } else {
      assert (a + b)[0] == a[0];
      assert (a + b)[1..] == a[1..] + b;
      EligibleAppend(a[1..], b, mask);
    }
  }

  /** One offer: the format tried and the `TypedValue` the converter was handed. */
  datatype Attempt = Attempt(format: string, offered: TypedValue)

  /** What a scan did: the resulting value, the attempts in order, and whether one accepted. */
  datatype Scan = Scan(value: TypedValue, attempts: seq<Attempt>, accepted: bool)

  function Try(env: Env, attrId: int, text: string, a: Attempt): (bool, TypedValue) {
    env.convert(attrId, a.format, text, a.offered)
  }

  /** First-acceptance over a list of format names, recording each attempt. */
  function FirstAccept(env: Env, attrId: int, text: string, formats: seq<string>, tv: TypedValue): (r: Scan)
    ensures |r.attempts| <= |formats|
    decreases |formats|
  {
    if |formats| == 0 then Scan(tv, [], false)
    else
      var first := Attempt(formats[0], tv);
      var (accepted, next) := Try(env, attrId, text, first);
      if accepted then Scan(next, [first], true)
      else
        var rest := FirstAccept(env, attrId, text, formats[1..], next);
        Scan(rest.value, [first] + rest.attempts, rest.accepted)
  }

  /**
   What a first-acceptance scan did: it tried the names in order, handed each
   converter what the previous one left, was declined at every attempt but
   the last, and either was accepted at the last attempt or tried every name;
   its value is what the last converter left.
   */
  ghost predicate IsFirstAcceptTrace(env: Env, attrId: int, text: string, formats: seq<string>, tv: TypedValue, r: Scan) {
    && |r.attempts| <= |formats|
    && (forall k :: 0 <= k < |r.attempts| ==> r.attempts[k].format == formats[k])
    && (0 < |r.attempts| ==> r.attempts[0].offered == tv)
    && (forall k :: 0 <= k < |r.attempts| - 1 ==> !Try(env, attrId, text, r.attempts[k]).0)
    && (forall k :: 0 <= k < |r.attempts| - 1 ==> r.attempts[k + 1].offered == Try(env, attrId, text, r.attempts[k]).1)
    && r.accepted == (0 < |r.attempts| && Try(env, attrId, text, r.attempts[|r.attempts| - 1]).0)
    && (!r.accepted ==> |r.attempts| == |formats|)
    && r.value == if |r.attempts| == 0 then tv else Try(env, attrId, text, r.attempts[|r.attempts| - 1]).1
  }

  /** The scan stops at the first converter that accepts, having offered the text to every earlier one. */
  lemma {:induction false} FirstAcceptTrace(env: Env, attrId: int, text: string, formats: seq<string>, tv: TypedValue)
    ensures IsFirstAcceptTrace(env, attrId, text, formats, tv, FirstAccept(env, attrId, text, formats, tv))
    decreases |formats|
  {
    if |formats| > 0 {
      var first := Attempt(formats[0], tv);
      var (accepted, next) := Try(env, attrId, text, first);
      if !accepted {
        var rest := FirstAccept(env, attrId, text, formats[1..], next);
        FirstAcceptTrace(env, attrId, text, formats[1..], next);
        var r := FirstAccept(env, attrId, text, formats, tv);
        assert r.attempts == [first] + rest.attempts;
        assert forall k :: 0 < k < |r.attempts| ==> r.attempts[k] == rest.attempts[k - 1];
        assert forall k :: 0 <= k < |r.attempts| ==> r.attempts[k].format == formats[k] by {
          forall k | 0 < k < |r.attempts|
            ensures r.attempts[k].format == formats[k]
          {
            assert rest.attempts[k - 1].format == formats[1..][k - 1];
          }
        }
        assert forall k :: 0 <= k < |r.attempts| - 1 ==> r.attempts[k + 1].offered == Try(env, attrId, text, r.attempts[k]).1 by {
          forall k | 0 < k < |r.attempts| - 1
            ensures r.attempts[k + 1].offered == Try(env, attrId, text, r.attempts[k]).1
          {
            assert rest.attempts[k].offered == Try(env, attrId, text, rest.attempts[k - 1]).1;
          }
        }
      }
    }
  }

  /** The loop as written is first-acceptance over the eligible formats. */
  lemma {:induction false} ScanIsFirstAccept(env: Env, attrId: int, text: string, flags: seq<FlagEntry>, mask: bv32, tv: TypedValue)
    ensures ScanFormats(env, attrId, text, flags, mask, tv) == FirstAccept(env, attrId, text, Eligible(flags, mask), tv).value
    decreases |flags|
  {
    if |flags| > 0 {
      var names := Eligible(flags, mask);
      if IsEligible(flags[0], mask) {
        assert names[1..] == Eligible(flags[1..], mask);
        var (accepted, next) := env.convert(attrId, flags[0].name, text, tv);
        if !accepted {
          ScanIsFirstAccept(env, attrId, text, flags[1..], mask, next);
        }
      } else {
        ScanIsFirstAccept(env, attrId, text, flags[1..], mask, tv);
      }
    }
  }

  /** When every eligible converter declines and leaves the value alone, the scan returns it unchanged. */
  lemma {:induction false} AllDeclineLeavesValue(env: Env, attrId: int, text: string, flags: seq<FlagEntry>, mask: bv32, tv: TypedValue)
    requires forall i :: 0 <= i < |flags| && IsEligible(flags[i], mask) ==>
               env.convert(attrId, flags[i].name, text, tv) == (false, tv)
    ensures ScanFormats(env, attrId, text, flags, mask, tv) == tv
    decreases |flags|
  {
    if |flags| > 0 {
      assert forall i :: 1 <= i < |flags| ==> flags[i] == flags[1..][i - 1];
      AllDeclineLeavesValue(env, attrId, text, flags[1..], mask, tv);
    }
  }
}

=== FILE: java_int.dfy ===
/**
 Java's 32-bit `int` range and the decimal text `Integer.toString` produces,
 which the builder concatenates after an `@` to form a reference literal.
 */
module JavaInt {
  import opened Wrappers

  const INT_MIN: int := -0x8000_0000
  const INT_MAX: int := 0x7fff_ffff

  predicate IsInt32(x: int) {
    INT_MIN <= x <= INT_MAX
  }

  predicate IsDigit(c: char) {
    '0' <= c <= '9'
  }

  predicate AllDigits(s: string) {
    forall i :: 0 <= i < |s| ==> IsDigit(s[i])
  }

  function DigitChar(d: int): (c: char)
    requires 0 <= d < 10
    ensures IsDigit(c) && c as int - '0' as int == d
  {
    ('0' as int + d) as char
  }

  /** Decimal digits of a natural number, most significant first. */
  function Digits(n: nat): (s: string)
    ensures 0 < |s|
    ensures AllDigits(s)
    ensures s[0] == '0' ==> s == "0"
    decreases n
  {
    if n < 10 then [DigitChar(n)] else Digits(n / 10) + [DigitChar(n % 10)]
  }

  /** `Integer.toString(n)`: a minus sign for negative values, then the digits. */
  function ToString(n: int): (s: string)
    ensures 0 < |s|
    ensures n < 0 <==> s[0] == '-'
    ensures n < 0 ==> 1 < |s| && AllDigits(s[1..])
    ensures 0 <= n ==> AllDigits(s)
    ensures 0 <= n ==> (s[0] == '0' ==> s == "0")
    ensures n < 0 ==> s[1] != '0'
  {
    if n < 0 then "-" + Digits(-n) else Digits(n)
  }

  /** Value of a run of decimal digits. */
  function DigitsValue(s: string): nat
    requires AllDigits(s)
  {
    if |s| == 0 then 0
    else DigitsValue(s[..|s| - 1]) * 10 + (s[|s| - 1] as int - '0' as int)
  }

  /** Reads back what `ToString` writes: an optional minus sign and at least one digit. */
  function Parse(s: string): Option<int> {
    if 1 < |s| && s[0] == '-' && AllDigits(s[1..]) then Some(-(DigitsValue(s[1..]) as int))
    else if 0 < |s| && AllDigits(s) then Some(DigitsValue(s))
    else None
  }

  lemma {:induction false} DigitsValueOfDigits(n: nat)
    ensures DigitsValue(Digits(n)) == n
    decreases n
  {
    if n >= 10 {
      var s := Digits(n);
      assert s[..|s| - 1] == Digits(n / 10);
      DigitsValueOfDigits(n / 10);
    }
  }

  /** The decimal text of every integer reads back as that integer. */
  lemma ParseToString(n: int)
    ensures Parse(ToString(n)) == Some(n)
  {
    var s := ToString(n);
    if n < 0 {
      assert s[1..] == Digits(-n);
      DigitsValueOfDigits(-n);
    } else {
      assert IsDigit(s[0]);
      DigitsValueOfDigits(n);
    }
  }

  /** Distinct integers have distinct decimal texts. */
  lemma ToStringInjective(m: int, n: int)
    ensures ToString(m) == ToString(n) ==> m == n
  {
    ParseToString(m);
    ParseToString(n);
  }
}

=== FILE: res_types.dfy ===
/**
 Typed values of Android's compiled resource format and the collaborators the
 builder consults: the app's resource table, the asset manager's attribute
 definitions, the per-format converters, and the format-flag priority list.
 */
module ResTypes {
  import opened Wrappers

  /** `Res_value` data-type codes the builder produces itself. */
  const TYPE_NULL: int := 0x00
  const TYPE_REFERENCE: int := 0x01
  const TYPE_STRING: int := 0x03

  /** Namespaces of framework attributes and of app (`res-auto`) attributes. */
  const ANDROID_NS: string := "http://schemas.android.com/apk/res/android"
  const AUTO_NS: string := "http://schemas.android.com/apk/res-auto"

  /** Name of the format flag the format scan always passes over. */
  const REFERENCE_FORMAT: string := "reference"

  /** `android.util.TypedValue`: the converters' output parameter. */
  datatype TypedValue = TypedValue(dataType: int, data: int, str: Option<string>)

  /** `new TypedValue()`: type 0 (null), data 0, no string. */
  const BLANK_TYPED_VALUE: TypedValue := TypedValue(TYPE_NULL, 0, None)

  /** A fully qualified resource name. */
  datatype ResName = ResName(packageName: string, resType: string, name: string)

  /** An entry of the format-flag table: a format's name and its bit in an attribute's format mask. */
  datatype FlagEntry = FlagEntry(name: string, value: bv32)

  /**
   The resolved value of one attribute before any string is pooled. `payload`
   is the 32-bit data word, or `Pooled(s)` when the word is the pool index of `s`.
   */
  datatype Payload = Word(n: int) | Pooled(text: Option<string>)
  datatype Meaning = Meaning(dataType: int, payload: Payload, raw: Option<string>)

  /** Only strings are pooled, and a pooled payload is the raw value itself. */
  predicate WellFormed(m: Meaning) {
    && (m.dataType == TYPE_STRING <==> m.payload.Pooled?)
    && (m.payload.Pooled? ==> m.payload.text == m.raw)
  }

  datatype BuildError = UnresolvedReference(text: string)

  /** The collaborators, as the values they answer with. */
  datatype Env = Env(
    /** `context.getPackageName()`. */
    packageName: string,
    /** `ResourceTable.getResName(id)`. */
    resName: int -> ResName,
    /** `ResourceTable.getResourceId(name)`; `None` for an unknown name. */
    resourceId: ResName -> Option<int>,
    /** `AttributeResource.getResourceReference(text, defaultPackage, null)`: a style, class or id reference. */
    qualify: (string, string) -> ResName,
    /** `new AttributeResource(attrName, text, defaultPackage).getResourceReference()`: a real attribute's reference. */
    qualifyAttr: (ResName, string, string) -> ResName,
    /** `Resources.getIdentifier(name, type, package)`; 0 when unknown. */
    identifier: ResName -> int,
    /** The attribute's `ATTR_TYPE` bag entry: its mask of permitted formats. */
    formatMask: int -> bv32,
    /** `ResourceTable.gFormatFlags`, in priority order. */
    formatFlags: seq<FlagEntry>,
    /** The converter for (attribute id, format name) filling a `TypedValue` from text:
        whether it accepted, and the `TypedValue` as it left it. */
    convert: (int, string, string, TypedValue) -> (bool, TypedValue))
}

=== FILE: resolve.dfy ===
/**
 Value resolution for one entry of the build loop. Style, class and id follow
 literal syntax only (null, reference, or plain string). A real attribute's
 text is first checked for reference syntax; otherwise the format scan decides.
 The result is a `Meaning`: pooling strings is left to the encoder.
 */
module Resolve {
  import opened Wrappers
  import opened JavaInt
  import opened ResTypes
  import opened FormatScan
  import opened AttributeSetBuilder

  const NULL_LITERAL: string := "@null"

  predicate IsNullLiteral(text: string) {
    text == NULL_LITERAL
  }

  /** Reference syntax: text starting with `@` that is not the null literal. */
  predicate IsReference(text: string) {
    0 < |text| && text[0] == '@' && !IsNullLiteral(text)
  }

  /** The resource name a style, class or id reference denotes, qualified with the app's package. */
  function Referent(env: Env, text: string): ResName {
    env.qualify(text, env.packageName)
  }

  /**
   The resource name a real attribute's reference denotes: the literal is read
   against the attribute's own resource name and the app's package.
   */
  function AttrReferent(env: Env, attrId: int, text: string): ResName {
    env.qualifyAttr(env.resName(attrId), text, env.packageName)
  }

  /**
   What the build demands of an entry without throwing: a real attribute has a
   text, and a reference given to style, class or id names a known resource.
   */
  ghost predicate Resolvable(env: Env, key: Key, text: Option<string>) {
    if key.Real? then text.Some?
    else text.Some? && IsReference(text.value) ==> env.resourceId(Referent(env, text.value)).Some?
  }

  /** The style/class/id branch: no attribute definition, literal syntax only. */
  function ResolvePseudo(env: Env, text: Option<string>): (m: Meaning)
    requires text.Some? && IsReference(text.value) ==> env.resourceId(Referent(env, text.value)).Some?
    ensures WellFormed(m) && m.raw == text
    ensures m.dataType == TYPE_NULL <==> text.None? || IsNullLiteral(text.value)
    ensures m.dataType == TYPE_REFERENCE <==> text.Some? && IsReference(text.value)
    ensures m.dataType == TYPE_STRING <==> text.Some? && !IsNullLiteral(text.value) && !IsReference(text.value)
    ensures m.dataType == TYPE_NULL ==> m.payload == Word(0)
    ensures m.dataType == TYPE_REFERENCE ==> Some(m.payload.n) == env.resourceId(Referent(env, text.value))
  {
    if text.None? || IsNullLiteral(text.value) then Meaning(TYPE_NULL, Word(0), text)
    else if IsReference(text.value) then
      Meaning(TYPE_REFERENCE, Word(env.resourceId(Referent(env, text.value)).value), text)
    else Meaning(TYPE_STRING, Pooled(text), text)
  }

  /**
   `parse` plus the type test after it. A reference wins whatever formats the
   attribute declares, and fails when the identifier lookup answers 0. Other
   text gets the value of the first eligible converter that accepts it, or the
   value as the converters left it when none does; no error is raised then.
   */
  function ResolveReal(env: Env, attrId: int, text: string): (r: Result<Meaning, BuildError>)
    ensures r.Failure? <==> IsReference(text) && env.identifier(AttrReferent(env, attrId, text)) == 0
    ensures r.Failure? ==> r.error == UnresolvedReference(text)
    ensures r.Success? ==> WellFormed(r.value)
    ensures r.Success? && IsReference(text) ==>
              var id := env.identifier(AttrReferent(env, attrId, text));
              && r.value.dataType == TYPE_REFERENCE
              && r.value.payload == Word(id)
              && r.value.raw.Some? && 1 < |r.value.raw.value| && r.value.raw.value[0] == '@'
              && Parse(r.value.raw.value[1..]) == Some(id)
              && r.value.raw == Some("@" + ToString(id))
    ensures !IsReference(text) ==>
              var tv := FirstAccept(env, attrId, text, Eligible(env.formatFlags, env.formatMask(attrId)), BLANK_TYPED_VALUE).value;
              && r.Success?
              && r.value.dataType == tv.dataType
              && r.value.raw == tv.str
              && (tv.dataType != TYPE_STRING ==> r.value.payload == Word(tv.data))
  {
    if IsReference(text) then
      var id := env.identifier(AttrReferent(env, attrId, text));
      if id == 0 then Failure(UnresolvedReference(text))
      else
        var raw := "@" + ToString(id);
        assert raw[1..] == ToString(id);
        ParseToString(id);
        Success(Meaning(TYPE_REFERENCE, Word(id), Some(raw)))
    else
      var mask := env.formatMask(attrId);
      var tv := ScanFormats(env, attrId, text, env.formatFlags, mask, BLANK_TYPED_VALUE);
      ScanIsFirstAccept(env, attrId, text, env.formatFlags, mask, BLANK_TYPED_VALUE);
      if tv.dataType == TYPE_STRING then Success(Meaning(TYPE_STRING, Pooled(tv.str), tv.str))
      else Success(Meaning(tv.dataType, Word(tv.data), tv.str))
  }

  /** Resolution of one entry, by the role of its key. */
  function ResolveEntry(env: Env, key: Key, text: Option<string>): (r: Result<Meaning, BuildError>)
    requires Resolvable(env, key, text)
    ensures r.Success? ==> WellFormed(r.value)
    ensures !key.Real? ==> r.Success?
  {
    if key.Real? then ResolveReal(env, key.id, text.value)
    else Success(ResolvePseudo(env, text))
  }

  /**
   A text that no permitted format accepts, where the converters leave the
   value untouched when they decline, resolves to the null type with data 0
   and no raw string: the build does not fail.
   */
  lemma UnacceptedTextIsNull(env: Env, attrId: int, text: string)
    requires !IsReference(text)
    requires forall i :: 0 <= i < |env.formatFlags| && IsEligible(env.formatFlags[i], env.formatMask(attrId)) ==>
               env.convert(attrId, env.formatFlags[i].name, text, BLANK_TYPED_VALUE) == (false, BLANK_TYPED_VALUE)
    ensures ResolveReal(env, attrId, text) == Success(Meaning(TYPE_NULL, Word(0), None))
  {
    AllDeclineLeavesValue(env, attrId, text, env.formatFlags, env.formatMask(attrId), BLANK_TYPED_VALUE);
  }

  /** `new AttrInfo(int)` stores a reference literal, whatever the id. */
  lemma AttrInfoOfIdIsReference(id: int)
    ensures IsReference(AttrInfoOfId(id).value.value)
  {
    var digits := ToString(id);
    var text := AttrInfoOfId(id).value.value;
    assert text == "@" + digits && text[1] == digits[0];
    assert digits[0] == '-' || IsDigit(digits[0]);
    assert NULL_LITERAL[1] == 'n';
  }
}

=== FILE: sorted_map.dfy ===
/**
 The `TreeMap<Integer, V>` the builder keeps its assignments in: a sequence of
 entries in strictly ascending key order, so iterating it visits keys in
 ascending order, and `Put` replaces the value of a key already present.
 */
module SortedMap {
  import opened Wrappers

  datatype Entry<V> = Entry(key: int, value: V)

  ghost predicate Sorted<V>(m: seq<Entry<V>>) {
    forall i, j :: 0 <= i < j < |m| ==> m[i].key < m[j].key
  }

  /** `TreeMap.get`: the value stored under `k`, or `None`. */
  function Get<V>(m: seq<Entry<V>>, k: int): Option<V> {
    if |m| == 0 then None
    else if m[0].key == k then Some(m[0].value)
    else Get(m[1..], k)
  }

  /** `TreeMap.put`: insert at the key's place in the order, or overwrite. */
  function Put<V>(m: seq<Entry<V>>, k: int, v: V): (r: seq<Entry<V>>)
    requires Sorted(m)
    ensures Sorted(r)
    ensures 0 < |r| && r[0].key == (if |m| == 0 || k < m[0].key then k else m[0].key)
    ensures Get(r, k) == Some(v)
    ensures forall k' :: k' != k ==> Get(r, k') == Get(m, k')
  {
    if |m| == 0 || k < m[0].key then
      GetBelowFirst(m, k);
      [Entry(k, v)] + m
    else if k == m[0].key then
      [Entry(k, v)] + m[1..]
    else
      [m[0]] + Put(m[1..], k, v)
  }

  /** A key below the first key of a sorted map is absent. */
  lemma {:induction false} GetBelowFirst<V>(m: seq<Entry<V>>, k: int)
    requires Sorted(m)
    requires |m| == 0 || k < m[0].key
    ensures Get(m, k) == None
    decreases |m|
  {
    if |m| > 0 {
      GetBelowFirst(m[1..], k);
    }
  }

  /** `Get` finds exactly the entries of the sequence. */
  lemma {:induction false} GetIsEntry<V>(m: seq<Entry<V>>, i: int)
    requires Sorted(m)
    requires 0 <= i < |m|
    ensures Get(m, m[i].key) == Some(m[i].value)
    decreases |m|
  {
    if i > 0 {
      GetIsEntry(m[1..], i - 1);
    }
  }

  /** A key present in a sorted map is one of its entries' keys. */
  lemma {:induction false} KeyOfGet<V>(m: seq<Entry<V>>, k: int)
    requires Get(m, k).Some?
    ensures exists i :: 0 <= i < |m| && m[i].key == k
    decreases |m|
  {
    if m[0].key != k {
      KeyOfGet(m[1..], k);
      var i :| 0 <= i < |m[1..]| && m[1..][i].key == k;
      assert m[i + 1].key == k;
    }
  }

  /** Two sorted maps that answer every `Get` alike are the same sequence. */
  lemma {:induction false} Extensionality<V>(a: seq<Entry<V>>, b: seq<Entry<V>>)
    requires Sorted(a) && Sorted(b)
    requires forall k :: Get(a, k) == Get(b, k)
    ensures a == b
    decreases |a|
  {
    if |a| == 0 {
      if |b| > 0 {
        assert Get(b, b[0].key).Some?;
        assert false;
      }
    } else if |b| == 0 {
      assert Get(a, a[0].key).Some?;
      assert false;
    } else {
      if a[0].key < b[0].key {
        GetBelowFirst(b, a[0].key);
        assert false;
      }
      if b[0].key < a[0].key {
        GetBelowFirst(a, b[0].key);
        assert false;
      }
      assert a[0] == b[0] by {
        assert Get(a, a[0].key) == Get(b, a[0].key);
      }
      forall k
        ensures Get(a[1..], k) == Get(b[1..], k)
      {
        if k == a[0].key {
          GetBelowFirst(a[1..], k);
          GetBelowFirst(b[1..], k);
        } else {
          assert Get(a, k) == Get(b, k);
        }
      }
      Extensionality(a[1..], b[1..]);
      assert a == [a[0]] + a[1..];
      assert b == [b[0]] + b[1..];
    }
  }

  /** Setting the same key twice keeps only the last value. */
  lemma PutOverwrites<V>(m: seq<Entry<V>>, k: int, first: V, last: V)
    requires Sorted(m)
    ensures Put(Put(m, k, first), k, last) == Put(m, k, last)
  {
    Extensionality(Put(Put(m, k, first), k, last), Put(m, k, last));
  }

  /** Writes to distinct keys may come in either order. */
  lemma PutCommutes<V>(m: seq<Entry<V>>, k1: int, v1: V, k2: int, v2: V)
    requires Sorted(m)
    requires k1 != k2
    ensures Put(Put(m, k1, v1), k2, v2) == Put(Put(m, k2, v2), k1, v1)
  {
    Extensionality(Put(Put(m, k1, v1), k2, v2), Put(Put(m, k2, v2), k1, v1));
  }
}

=== FILE: string_pool.dfy ===
/**
 The string pool the builder interns into. `Intern` is the pool writer's
 `string(s)`: equal texts share one slot, and a null text gets no slot.
 `InternUnique` is its `uniqueString(s)`: every call takes a fresh slot, so
 attribute names never collapse onto one index. Slots are numbered in
 interning order and are never removed.
 */
module StringPool {
  import opened Wrappers

  /** The index the pool hands out for a null text. */
  const NO_INDEX: int := -1

  /** `strings` in interning order; `shared` remembers the slot of each shared text. */
  datatype Pool = Pool(strings: seq<string>, shared: map<string, nat>) {
    /** Every shared text sits in the slot recorded for it. */
    ghost predicate Valid() {
      forall s :: s in shared ==> shared[s] < |strings| && strings[shared[s]] == s
    }
  }

  /** `q` is `p` after further interning: old slots keep their text and sharing. */
  ghost predicate Extends(p: Pool, q: Pool) {
    && |p.strings| <= |q.strings|
    && q.strings[..|p.strings|] == p.strings
    && (forall s :: s in p.shared ==> s in q.shared && q.shared[s] == p.shared[s])
  }

  /** The text in slot `i` of a serialized pool, `None` for the null index or a missing slot. */
  function Lookup(strings: seq<string>, i: int): Option<string> {
    if 0 <= i < |strings| then Some(strings[i]) else None
  }

  /** `i` is the null index or an existing slot of `strings`. */
  predicate Placed(strings: seq<string>, i: int) {
    i == NO_INDEX || 0 <= i < |strings|
  }

  /** Pool writer `string(s)`. */
  function Intern(p: Pool, s: Option<string>): (r: (Pool, int))
    requires p.Valid()
    ensures r.0.Valid() && Extends(p, r.0)
    ensures Placed(r.0.strings, r.1) && Lookup(r.0.strings, r.1) == s
    ensures s.None? ==> r == (p, NO_INDEX)
    ensures s.Some? ==> s.value in r.0.shared && r.0.shared[s.value] == r.1
    ensures s.Some? && s.value in p.shared ==> r == (p, p.shared[s.value])
    ensures s.Some? && s.value !in p.shared ==> r.1 == |p.strings| && r.0.strings == p.strings + [s.value]
    ensures |r.0.strings| <= |p.strings| + 1
  {
    match s
    case None => (p, NO_INDEX)
    case Some(text) =>
      if text in p.shared then (p, p.shared[text])
      else
        var q := Pool(p.strings + [text], p.shared[text := |p.strings|]);
        assert q.strings[..|p.strings|] == p.strings;
        (q, |p.strings|)
  }

  /** Pool writer `uniqueString(s)`. */
  function InternUnique(p: Pool, s: string): (r: (Pool, int))
    requires p.Valid()
    ensures r.0.Valid() && Extends(p, r.0)
    ensures r.1 == |p.strings| && |r.0.strings| == |p.strings| + 1
    ensures Lookup(r.0.strings, r.1) == Some(s)
    ensures r.0.strings == p.strings + [s] && r.0.shared == p.shared
  {
    var q := Pool(p.strings + [s], p.shared);
    assert q.strings[..|p.strings|] == p.strings;
    (q, |p.strings|)
  }

  lemma ExtendsTransitive(p: Pool, q: Pool, t: Pool)
    requires Extends(p, q) && Extends(q, t)
    ensures Extends(p, t)
  {
    assert t.strings[..|p.strings|] == t.strings[..|q.strings|][..|p.strings|];
  }

  /** A placed index names the same text in every later pool. */
  lemma LookupStable(p: Pool, q: Pool, i: int)
    requires Extends(p, q)
    requires Placed(p.strings, i)
    ensures Placed(q.strings, i)
    ensures Lookup(q.strings, i) == Lookup(p.strings, i)
  {
    if i != NO_INDEX {
      assert q.strings[i] == q.strings[..|p.strings|][i];
    }
  }

  /** Two shared internings of one text, however far apart, get the same slot. */
  lemma SharedSlotsCoincide(p: Pool, q: Pool, s: string)
    requires p.Valid() && q.Valid()
    requires Extends(Intern(p, Some(s)).0, q)
    ensures Intern(q, Some(s)) == (q, Intern(p, Some(s)).1)
  {
  }

  /** A unique interning never reuses a slot, even when the text is already pooled. */
  lemma UniqueSlotIsFresh(p: Pool, s: string, i: int)
    requires p.Valid()
    requires Lookup(p.strings, i).Some?
    ensures InternUnique(p, s).1 != i
  {
  }
}

=== FILE: wrappers.dfy ===
/** Option and Result datatypes shared by the rest of the model. */
module Wrappers {

  /** A value that may be absent: Java's `null` for references such as `String`. */
  datatype Option<+T> = None | Some(value: T)

  /** The outcome of an operation that may throw: `Failure` carries the exception. */
  datatype Result<+R, +E> = Success(value: R) | Failure(error: E)
}
